=== FILE: README.md ===
# Ledger core of tx-transformation, in Dafny

tx-transformation reads a CSV stream of client transactions and keeps one
account per client. The transaction types are deposit, withdrawal, dispute,
resolve and chargeback. At the end it writes every account's `available`,
`held`, `total` and `locked` fields. This project models the core of that
program as pure Dafny functions over immutable data and proves properties
of the model:

- `models.dfy` (module `Models`): the data types. These are the
  transaction category and state, the transaction record, the account, and
  the ledger, which holds two maps (client id to account, transaction id to
  transaction). Also the `Default` values and the ledger invariant `Valid`:
  every account satisfies `total == available + held`, and no withdrawal
  ever leaves state Normal.
- `accounts.dfy` (module `Accounts`): the four read-only eligibility
  predicates and the five balance mutators. Four mutators abort through
  `assert!` when their predicate is false; in the model that predicate is
  the mutator's precondition. The deposit mutator has no guard.
- `ledgers.dfy` (module `Ledgers`): the transaction constructors,
  `__create_account`, and one total ledger handler per transaction type.
  It adds the handler call as data (`Op`), one step (`Step`) and the
  in-order fold over a sequence of steps (`Run`).
- `ledger_properties.dfy` (module `LedgerProperties`): multi-step
  properties. These cover the per-transaction state machine, the dispute
  round trips, the deliberate asymmetries of the dispute family, and
  non-negativity of balances over a whole run.
- `input.dfy` (module `Input`): `parse_args` as a function of the argument
  vector, `__handle_record` with its error order, and the `parse_csv` fold.
  The results of number parsing are inputs (`Option` values), not strings.
- `scenarios.dfy` (module `Scenarios`): the account unit test as lemmas,
  and a five-row batch (two deposits, a withdrawal, then a dispute and a
  chargeback of the first deposit) traced from decoding to the final
  ledger.
- `wrappers.dfy` (module `Wrappers`): `Option` and `Result`.

Representation choices:

- A `rust_decimal::Decimal` amount is a Dafny `real`. The source only adds,
  subtracts and compares amounts, and `Decimal` does those exactly within
  its 96-bit mantissa; the model has no such limit.
  No amount is assumed non-negative, because the parser accepts negative
  amounts.
- Client and transaction ids are `u32`, a subset type of `int`.
- A handler that mutates the ledger in place becomes a function from the
  old ledger to the new one.
- A guard that fails is a silent no-op, with one exception: a non-deposit
  operation that names an unknown client inserts an empty account for that
  client (`Ledgers.Touch`).

Two behaviours of the code that the model keeps:

- A failing record stops `parse_csv`, but the rows before it stay applied
  to the ledger, because the ledger is updated in place. That no account
  rows are written after an input error is a property of `main`
  (`src/main.rs:24-33`), which is not part of this model: it prints only
  the error and exits with status 1.
- The dispute handler does not compare the caller with the transaction's
  owner. It moves the funds inside the caller's account.

## Model

| member | source | states |
|---|---|---|
| Models.DefaultAccountIsEmpty | src/models.rs:28-34 | A default account has zero available, held and total, is unlocked, and satisfies the balance invariant |
| Models.DefaultAccount | src/models.rs:28-34 | `Account::default()`: the all-zero, unlocked account; its facts are stated by `Models.DefaultAccountIsEmpty` |
| Models.DefaultLedger | src/models.rs:36-40 | A default ledger has no accounts and no transactions, and satisfies the ledger invariant |
| Ledgers.FromDeposit | src/handlers.rs:5-12 | A transaction built from a deposit has category Deposit, starts Normal, and keeps the amount and owning client |
| Ledgers.FromWithdrawal | src/handlers.rs:14-21 | A transaction built from a withdrawal has category Withdrawal, starts Normal, and keeps the amount and owning client |
| Accounts.CanWithdraw | src/handlers.rs:26-28 | A withdrawal is eligible exactly when available and total both cover the amount and the account is unlocked; the lock is the only flag read (`Accounts.LockGatesOnlyWithdrawal`) |
| Accounts.CanDispute | src/handlers.rs:30-32 | A dispute is eligible exactly when available covers the amount |
| Accounts.CanResolve | src/handlers.rs:34-36 | A resolve is eligible exactly when held covers the amount |
| Accounts.CanChargeback | src/handlers.rs:38-40 | A chargeback is eligible exactly when total and held both cover the amount |
| Accounts.ApplyDeposit | src/handlers.rs:45-48 | Deposit credits available and total by the amount, leaves held and the lock alone, and is never refused |
| Accounts.ApplyWithdrawal | src/handlers.rs:50-54 | Withdrawal is callable only when can_withdraw holds; it debits available and total, leaves both non-negative, and a deposit of the same amount undoes it |
| Accounts.ApplyDispute | src/handlers.rs:56-60 | Dispute is callable only when can_dispute holds; it moves the amount from available to held, keeps total and the lock, and leaves available non-negative |
| Accounts.ApplyResolve | src/handlers.rs:62-66 | Resolve is callable only when can_resolve holds; it moves the amount from held back to available, keeps total and the lock, and leaves held non-negative |
| Accounts.ApplyChargeback | src/handlers.rs:68-73 | Chargeback is callable only when can_chargeback holds; it removes the amount from held and total, keeps available, locks the account, and afterwards no withdrawal of any amount is allowed |
| Accounts.MutatorsKeepBalance | src/handlers.rs:45-73 | Every mutator called within its guard keeps total equal to available plus held |
| Accounts.MutatorsKeepNonNegative | src/handlers.rs:26-73 | With a non-negative amount, every guarded mutator keeps a non-negative account non-negative |
| Accounts.LockGatesOnlyWithdrawal | src/handlers.rs:26-40 | The lock refuses every withdrawal, and the other three predicates give the same answer whatever the lock says |
| Accounts.FreshAccountRefusesDebits | src/handlers.rs:161-169 | On a default account, withdrawal, dispute, resolve and chargeback of any positive amount are all refused, so the test's calls abort |
| Accounts.DisputeThenResolve | src/handlers.rs:56-66 | When held is not negative, a dispute makes resolve of the same amount eligible, resolve restores the account exactly, and total is unchanged throughout |
| Accounts.ResolveThenDispute | src/handlers.rs:56-66 | When available is not negative, a resolve makes dispute of the same amount eligible, and the dispute restores the account exactly |
| Accounts.DisputeThenChargeback | src/handlers.rs:56-73 | On a balanced account whose held is not negative, a dispute makes chargeback of the same amount eligible; together they take the amount out of available and total, leave held as it was, and lock the account |
| Ledgers.CreateAccount | src/handlers.rs:78-81 | Inserts a default account for the client; other accounts and all transactions are unchanged |
| Ledgers.HandleDeposit | src/handlers.rs:83-94 | Always records the deposit under its id, replacing any earlier entry, and credits the client's account, creating it if needed; no other account changes |
| Ledgers.HandleWithdrawal | src/handlers.rs:96-106 | A withdrawal by a known client that can_withdraw allows (available and total cover the amount and the account is not locked) is recorded and debited; otherwise the ledger is unchanged apart from creating an unknown client's empty account |
| Ledgers.HandleDispute | src/handlers.rs:108-122 | A dispute of a known Normal deposit that the caller's available funds cover marks it Disputed and moves the funds in the caller's account; otherwise it only creates an unknown caller's empty account |
| Ledgers.HandleResolve | src/handlers.rs:124-138 | A resolve by the owner of a Disputed transaction with enough held funds marks it Normal and releases the funds; otherwise it only creates an unknown caller's empty account |
| Ledgers.HandleChargeback | src/handlers.rs:140-154 | A chargeback by the owner of a Disputed transaction, with enough held and total funds, marks it Chargedback and removes the funds; otherwise it only creates an unknown caller's empty account |
| Ledgers.Step | src/handlers.rs:83-154 | A refused operation only creates the caller's empty account; no operation changes another client's account or removes a transaction |
| Ledgers.StepPreservesValid | src/handlers.rs:83-154 | Every handler keeps every account balanced and keeps every withdrawal in state Normal |
| Ledgers.Run | src/input.rs:26-32 | Applying operations in order never removes an account or a transaction, and every client an operation names ends up with an account |
| Ledgers.RunPreservesValid | src/input.rs:26-32 | Starting from a ledger that satisfies the invariant, the invariant holds after any sequence of operations |
| Ledgers.RunExtend | src/input.rs:27-30 | Running one more operation is one more step applied to the earlier result |
| LedgerProperties.TransactionLifecycle | src/handlers.rs:108-154 | A recorded transaction is changed only by an operation that names it, only from Normal deposit to Disputed, or by its owner from Disputed to Normal or Chargedback; category, amount and owner never change, unless a deposit or withdrawal records a new transaction under its id |
| LedgerProperties.StepAddsAtMostItsTx | src/handlers.rs:83-154 | An operation adds at most its own transaction id; dispute, resolve and chargeback add none |
| LedgerProperties.ChargedbackIsTerminal | src/handlers.rs:140-154 | A Chargedback transaction stays exactly as it is through any run that does not record a new transaction under its id |
| LedgerProperties.ReusedTxIdResetsState | src/handlers.rs:83-94 | A deposit that reuses the id of a Chargedback transaction replaces it with a Normal one, disputable again whenever the funds allow |
| LedgerProperties.UnknownClientGetsEmptyAccount | src/handlers.rs:96-154 | A withdrawal, dispute, resolve or chargeback naming an unknown client only inserts an empty account for that client |
| LedgerProperties.RejectedWithdrawalLeavesNoTrace | src/handlers.rs:96-154 | For an id not already recorded, a refused withdrawal records nothing, so a later dispute, resolve or chargeback on its id changes nothing beyond creating the caller's account |
| LedgerProperties.DisputeThenResolveRestores | src/handlers.rs:108-138 | When the owner's held is not negative, the owner's dispute followed by the owner's resolve gives back the original ledger exactly |
| LedgerProperties.DisputeThenChargebackLocks | src/handlers.rs:108-154 | When the owner's account is balanced and its held is not negative, the owner's dispute followed by a chargeback removes the amount, locks the account against every withdrawal, and leaves a transaction that a second chargeback or a resolve does not move |
| LedgerProperties.DisputeSkipsOwnerCheck | src/handlers.rs:108-122 | Any known client may dispute another client's Normal deposit; the funds move in the caller's account, the owner's account is untouched, and the caller can then neither resolve nor charge it back |
| LedgerProperties.StepKeepsBalancesNonNegative | src/handlers.rs:83-154 | With non-negative amounts, one operation keeps every balance of every account, and every recorded amount, non-negative |
| LedgerProperties.StepKeepsLock | src/handlers.rs:83-154 | No operation unlocks an account or removes it: a locked account is still present and locked afterwards |
| LedgerProperties.RunKeepsLock | src/handlers.rs:26-28 | Once an account is locked (src/handlers.rs:72) it stays locked through any run, and every later withdrawal from it is refused |
| LedgerProperties.RunKeepsBalancesNonNegative | src/handlers.rs:83-154 | With non-negative amounts, a whole run keeps every balance and every recorded amount non-negative |
| Input.ParseArgs | src/input.rs:17-24 | Exactly two arguments succeed and are returned; one gives NoEnoughArgs; any other count, zero included, gives TooManyArgs |
| Input.Decode | src/input.rs:34-65 | A record decodes exactly when client id, tx id and type are valid and, for deposit and withdrawal, the amount is valid; the first failing check decides the error, in the order client id, tx id, type, amount |
| Input.DecodeEncode | src/input.rs:34-65 | Decoding the record a handler call is written as gives that call back |
| Input.DisputeFamilyIgnoresAmount | src/input.rs:51-62 | Dispute, resolve and chargeback records decode the same whatever the amount column holds |
| Input.HandleRecord | src/input.rs:34-65 | Handling a record succeeds exactly when it decodes, and then applies exactly the handler it decodes to; on failure it reports the decoding error and applies nothing |
| Input.FirstFailure | src/input.rs:26-31 | Locates the first row that is malformed or fails to decode; every earlier row succeeds |
| Input.ParseCsv | src/input.rs:26-32 | Applies the rows in order, stops at the first failing one with that row's error, and returns the ledger with exactly the earlier rows applied; no error means every row was applied |
| Scenarios.DepositWithdrawTest | src/handlers.rs:171-179 | Deposit 100 into a fresh account, then withdraw 99, leaves 1 available and 1 total |
| Scenarios.DisputeTest | src/handlers.rs:181-184 | Disputing 1 of the remaining 1 leaves 0 available, 1 held and 1 total |
| Scenarios.ResolveTest | src/handlers.rs:186-189 | Resolving it leaves 1 available, 0 held and 1 total |
| Scenarios.DisputeChargebackTest | src/handlers.rs:191-195 | Disputing again and charging back leaves every balance at 0 and the account locked |
| Scenarios.BatchDecodes | src/input.rs:34-65 | The five rows of the batch all decode, to the two deposits, the withdrawal, the dispute and the chargeback |
| Scenarios.BatchStepThree | src/handlers.rs:96-106 | With 100 available, client 1's withdrawal of 20 is applied and recorded |
| Scenarios.BatchLastSteps | src/handlers.rs:108-154 | With only 80 available, the dispute of deposit 1 (amount 100) is refused; the chargeback then finds the deposit still Normal, so both change nothing |
| Scenarios.BatchEndToEnd | src/input.rs:26-32 | The batch ends with client 1 at 80 available and total, client 2 at 50, nothing held, neither locked, and deposit 1 still Normal |
| Scenarios.NegativeDepositDecodes | src/input.rs:39-44 | A negative deposit amount is accepted by the record handler |
| Scenarios.NegativeDepositOverdraws | src/handlers.rs:83-94 | A negative deposit is applied without a check and takes a fresh account's available balance below zero |

## Left out

- CSV reading and writing (the `csv` crate, `src/output.rs`): library I/O. A row that the reader reports as malformed, for example one with the wrong number of columns, is a `None` row, which gives `IllformedRecord`. The header row is consumed by the reader and is not a row here. The order of output rows follows hash-map iteration and is unspecified.
- Parsing text into `u32` and `Decimal`, and rendering decimals: these are library calls. A record carries their results as `Option` values, with `None` where the text does not parse. The type column is compared as given, with no trimming.
- `rust_decimal` precision limits and overflow panics: amounts are unbounded exact rationals.
- Input.Record: assumes the four-column header the program's data uses (`example/generate_txs.py:7`); with fewer header columns the reader accepts equally short rows, and the source then panics on the missing column index instead of returning an error.
- `src/main.rs`: argument collection, opening the file (`CannotOpenFile`), standard output and the exit status. `ParseArgs` takes the argument vector as a parameter.
- `example/generate_txs.py`: a generator of test data, not part of the system's behaviour.
- Account mutators called outside their guard: the source panics through `assert!`. In the model the guard is a precondition, so such a call cannot be written.
- Rust's `HashMap`: modelled as a Dafny `map`, so at most one account per client id and one transaction per transaction id hold by construction.

=== FILE: accounts.dfy ===
/**
 * Account balance arithmetic: four read-only eligibility predicates and
 * five mutators. Every mutator except the deposit aborts when its
 * predicate is false; here that abort is the mutator's precondition.
 */
module Accounts {
  import opened Models

  predicate CanWithdraw(a: Account, amount: Amount) {
    a.available >= amount && a.total >= amount && !a.locked
  }

  predicate CanDispute(a: Account, amount: Amount) {
    a.available >= amount
  }

  predicate CanResolve(a: Account, amount: Amount) {
    a.held >= amount
  }

  predicate CanChargeback(a: Account, amount: Amount) {
    a.total >= amount && a.held >= amount
  }

  /** Credits `amount`; never refused, whatever its sign. */
  function ApplyDeposit(a: Account, amount: Amount): (r: Account)
    ensures r.available == a.available + amount && r.total == a.total + amount
    ensures r.held == a.held && r.locked == a.locked
  {
    a.(available := a.available + amount, total := a.total + amount)
  }

  /** Debits `amount`; a deposit of the same amount undoes it. */
  function ApplyWithdrawal(a: Account, amount: Amount): (r: Account)
    requires CanWithdraw(a, amount)
    ensures r.available == a.available - amount && r.total == a.total - amount
    ensures r.held == a.held && !r.locked
    ensures r.available >= 0.0 && r.total >= 0.0
    ensures ApplyDeposit(r, amount) == a
  {
    a.(available := a.available - amount, total := a.total - amount)
  }

  /** Moves `amount` from available to held. */
  function ApplyDispute(a: Account, amount: Amount): (r: Account)
    requires CanDispute(a, amount)
    ensures r.available == a.available - amount && r.held == a.held + amount
    ensures r.total == a.total && r.locked == a.locked
    ensures r.available >= 0.0
  {
    a.(available := a.available - amount, held := a.held + amount)
  }

  /** Moves `amount` from held back to available. */
  function ApplyResolve(a: Account, amount: Amount): (r: Account)
    requires CanResolve(a, amount)
    ensures r.available == a.available + amount && r.held == a.held - amount
    ensures r.total == a.total && r.locked == a.locked
    ensures r.held >= 0.0
  {
    a.(available := a.available + amount, held := a.held - amount)
  }

  /** Removes `amount` from held and total and locks the account. */
  function ApplyChargeback(a: Account, amount: Amount): (r: Account)
    requires CanChargeback(a, amount)
    ensures r.total == a.total - amount && r.held == a.held - amount
    ensures r.available == a.available
    ensures r.locked
    ensures r.total >= 0.0 && r.held >= 0.0
    ensures forall x :: !CanWithdraw(r, x)
  {
    a.(total := a.total - amount, held := a.held - amount, locked := true)
  }

  /** Every mutator keeps `total == available + held`. */
  lemma MutatorsKeepBalance(a: Account, amount: Amount)
    requires a.Balanced()
    ensures ApplyDeposit(a, amount).Balanced()
    ensures CanWithdraw(a, amount) ==> ApplyWithdrawal(a, amount).Balanced()
    ensures CanDispute(a, amount) ==> ApplyDispute(a, amount).Balanced()
    ensures CanResolve(a, amount) ==> ApplyResolve(a, amount).Balanced()
    ensures CanChargeback(a, amount) ==> ApplyChargeback(a, amount).Balanced()
  {
  }

  /**
   * With a non-negative amount, the guards keep every balance of a
   * non-negative account non-negative; a deposit needs no guard for that.
   */
  lemma MutatorsKeepNonNegative(a: Account, amount: Amount)
    requires a.NonNegative() && amount >= 0.0
    ensures ApplyDeposit(a, amount).NonNegative()
    ensures CanWithdraw(a, amount) ==> ApplyWithdrawal(a, amount).NonNegative()
    ensures CanDispute(a, amount) ==> ApplyDispute(a, amount).NonNegative()
    ensures CanResolve(a, amount) ==> ApplyResolve(a, amount).NonNegative()
    ensures CanChargeback(a, amount) ==> ApplyChargeback(a, amount).NonNegative()
  {
  }

  /**
   * The lock blocks every withdrawal and nothing else: the other three
   * predicates give the same answer whatever the lock says.
   */
  lemma LockGatesOnlyWithdrawal(a: Account, amount: Amount, lock: bool)
    ensures a.locked ==> !CanWithdraw(a, amount)
    ensures !a.locked ==> (CanWithdraw(a, amount) <==> a.available >= amount && a.total >= amount)
    ensures CanDispute(a.(locked := lock), amount) == CanDispute(a, amount)
    ensures CanResolve(a.(locked := lock), amount) == CanResolve(a, amount)
    ensures CanChargeback(a.(locked := lock), amount) == CanChargeback(a, amount)
  {
  }

  /** A fresh account refuses every positive debit. */
  lemma FreshAccountRefusesDebits(amount: Amount)
    requires amount > 0.0
    ensures !CanWithdraw(DefaultAccount(), amount)
    ensures !CanDispute(DefaultAccount(), amount)
    ensures !CanResolve(DefaultAccount(), amount)
    ensures !CanChargeback(DefaultAccount(), amount)
  {
  }

  /** Dispute then resolve of one amount restores the account exactly. */
  lemma DisputeThenResolve(a: Account, amount: Amount)
    requires a.held >= 0.0
    requires CanDispute(a, amount)
    ensures CanResolve(ApplyDispute(a, amount), amount)
    ensures ApplyResolve(ApplyDispute(a, amount), amount) == a
    ensures ApplyDispute(a, amount).total == a.total
  {
  }

  /** Resolve then dispute of one amount restores the account exactly. */
  lemma ResolveThenDispute(a: Account, amount: Amount)
    requires a.available >= 0.0
    requires CanResolve(a, amount)
    ensures CanDispute(ApplyResolve(a, amount), amount)
    ensures ApplyDispute(ApplyResolve(a, amount), amount) == a
  {
  }

  /**
   * On a balanced account with nothing negative held, a dispute makes the
   * chargeback of the same amount eligible, and the pair removes the amount
   * from available and total and locks the account.
   */
  lemma DisputeThenChargeback(a: Account, amount: Amount)
    requires a.Balanced() && a.held >= 0.0
    requires CanDispute(a, amount)
    ensures CanChargeback(ApplyDispute(a, amount), amount)
    ensures ApplyChargeback(ApplyDispute(a, amount), amount)
      == Account(a.available - amount, a.held, a.total - amount, true)
  {
  }
}

=== FILE: input.dfy ===
/**
 * The record layer: command-line argument checking, the dispatch of one
 * CSV record to a ledger handler, and the fold over all records. Turning
 * text into numbers is left to the caller: a record carries the results
 * of parsing its id and amount columns as optional values.
 */
module Input {
  import opened Wrappers
  import opened Models
  import opened Ledgers

  datatype InputError =
    | NoEnoughArgs
    | TooManyArgs
    | CannotOpenFile
    | IllformedRecord
    | InvalidTxType
    | InvalidTxID
    | InvalidClientID
    | InvalidAmount

  /**
   * One CSV record: the type column as text, and columns 1 to 3 as parsed
   * by the number parsers (`None` where the text does not parse).
   */
  datatype Record = Record(
    txType: string,
    client: Option<ClientID>,
    tx: Option<TxID>,
    amount: Option<Amount>)

  /**
   * `parse_args`, as a function of the argument vector (program name
   * included): exactly one path argument is accepted.
   */
  function ParseArgs(args: seq<string>): (r: Result<seq<string>, InputError>)
    ensures r.Success? <==> |args| == 2
    ensures r.Success? ==> r.value == args
    ensures r == Failure(NoEnoughArgs) <==> |args| == 1
    ensures r == Failure(TooManyArgs) <==> |args| == 0 || |args| > 2
  {
    if |args| == 1 then Failure(NoEnoughArgs)
    else if |args| == 2 then Success(args)
    else Failure(TooManyArgs)
  }

  /** The five type strings the dispatcher recognises. */
  predicate KnownType(s: string) {
    s == "deposit" || s == "withdrawal" || s == "dispute" || s == "resolve" || s == "chargeback"
  }

  /** Types that carry an amount; only for these is column 3 read. */
  predicate HasAmount(s: string) {
    s == "deposit" || s == "withdrawal"
  }

  /**
   * Reference decoding of a record into the handler call it stands for.
   * Errors are reported in the order the record handler checks: client id,
   * transaction id, type, then (for deposits and withdrawals) amount.
   */
  function Decode(rec: Record): (r: Result<Op, InputError>)
    ensures rec.client.None? ==> r == Failure(InvalidClientID)
    ensures rec.client.Some? && rec.tx.None? ==> r == Failure(InvalidTxID)
    ensures rec.client.Some? && rec.tx.Some? && !KnownType(rec.txType) ==> r == Failure(InvalidTxType)
    ensures rec.client.Some? && rec.tx.Some? && HasAmount(rec.txType) && rec.amount.None?
      ==> r == Failure(InvalidAmount)
    ensures r.Success? <==>
      rec.client.Some? && rec.tx.Some? && KnownType(rec.txType)
      && (HasAmount(rec.txType) ==> rec.amount.Some?)
    ensures r.Success? ==> r.value.client == rec.client.value && r.value.tx == rec.tx.value
  {
    if rec.client.None? then Failure(InvalidClientID)
    else if rec.tx.None? then Failure(InvalidTxID)
    else
      var c, t := rec.client.value, rec.tx.value;
      if rec.txType == "deposit" then
        if rec.amount.None? then Failure(InvalidAmount) else Success(DepositTx(c, t, rec.amount.value))
      else if rec.txType == "withdrawal" then
        if rec.amount.None? then Failure(InvalidAmount) else Success(WithdrawalTx(c, t, rec.amount.value))
      else if rec.txType == "dispute" then Success(DisputeTx(c, t))
      else if rec.txType == "resolve" then Success(ResolveTx(c, t))
      else if rec.txType == "chargeback" then Success(ChargebackTx(c, t))
      else Failure(InvalidTxType)
  }

  /** The record a handler call is written as; the amount column is empty for the dispute family. */
  function Encode(op: Op): Record {
    match op
    case DepositTx(c, t, amount) => Record("deposit", Some(c), Some(t), Some(amount))
    case WithdrawalTx(c, t, amount) => Record("withdrawal", Some(c), Some(t), Some(amount))
    case DisputeTx(c, t) => Record("dispute", Some(c), Some(t), None)
    case ResolveTx(c, t) => Record("resolve", Some(c), Some(t), None)
    case ChargebackTx(c, t) => Record("chargeback", Some(c), Some(t), None)
  }

  /** Decoding an encoded handler call gives that call back. */
  lemma DecodeEncode(op: Op)
    ensures Decode(Encode(op)) == Success(op)
  {
  }

  /** Dispute, resolve and chargeback records never look at the amount column. */
  lemma DisputeFamilyIgnoresAmount(rec: Record, amount: Option<Amount>)
    requires rec.txType == "dispute" || rec.txType == "resolve" || rec.txType == "chargeback"
    ensures Decode(rec.(amount := amount)) == Decode(rec)
  {
  }

  /**
   * `__handle_record`: validates the client id, then the transaction id,
   * then dispatches on the type, reading the amount only for deposits and
   * withdrawals. It is the reference decoding followed by exactly one
   * ledger handler; on any error the ledger is not touched.
   */
  function HandleRecord(l: Ledger, rec: Record): (r: Result<Ledger, InputError>)
    ensures r.Success? <==> Decode(rec).Success?
    ensures r.Success? ==> r.value == Step(l, Decode(rec).value)
    ensures r.Failure? ==> r.error == Decode(rec).error
  {
    if rec.client.None? then Failure(InvalidClientID)
    else
      var c := rec.client.value;
      if rec.tx.None? then Failure(InvalidTxID)
      else
        var t := rec.tx.value;
        if rec.txType == "deposit" then
          if rec.amount.None? then Failure(InvalidAmount)
          else Success(HandleDeposit(l, c, t, rec.amount.value))
        else if rec.txType == "withdrawal" then
          if rec.amount.None? then Failure(InvalidAmount)
          else Success(HandleWithdrawal(l, c, t, rec.amount.value))
        else if rec.txType == "dispute" then Success(HandleDispute(l, c, t))
        else if rec.txType == "resolve" then Success(HandleResolve(l, c, t))
        else if rec.txType == "chargeback" then Success(HandleChargeback(l, c, t))
        else Failure(InvalidTxType)
  }

  /**
   * A row as the CSV reader yields it: `None` when the reader reports the
   * row as malformed.
   */
  type Row = Option<Record>

  /** What one row contributes: its handler call, or the error it stops the run with. */
  function RowOp(row: Row): Result<Op, InputError> {
    if row.None? then Failure(IllformedRecord) else Decode(row.value)
  }

  /** The index of the first row that fails, or `|rows|` when none does. */
  function FirstFailure(rows: seq<Row>): (k: nat)
    ensures k <= |rows|
    ensures forall i :: 0 <= i < k ==> RowOp(rows[i]).Success?
    ensures k < |rows| ==> RowOp(rows[k]).Failure?
  {
    if |rows| == 0 then 0
    else if RowOp(rows[0]).Failure? then 0
    else 1 + FirstFailure(rows[1..])
  }

  /** The handler calls of rows that all decode. */
  function OpsOf(rows: seq<Row>): (ops: seq<Op>)
    requires forall i :: 0 <= i < |rows| ==> RowOp(rows[i]).Success?
    ensures |ops| == |rows|
    ensures forall i :: 0 <= i < |rows| ==> RowOp(rows[i]) == Success(ops[i])
  {
    seq(|rows|, i requires 0 <= i < |rows| => RowOp(rows[i]).value)
  }

  /** Decoding one more row appends its handler call. */
  lemma OpsOfExtend(rows: seq<Row>, i: nat)
    requires i < |rows|
    requires forall j :: 0 <= j <= i ==> RowOp(rows[j]).Success?
    ensures OpsOf(rows[..i + 1]) == OpsOf(rows[..i]) + [RowOp(rows[i]).value]
  {
  }

  /**
   * `parse_csv`: applies the rows in order and stops at the first failing
   * one. The ledger is updated in place in the source, so on failure it
   * still holds the effects of every row before the failing one.
   */
  method ParseCsv(l0: Ledger, rows: seq<Row>) returns (l: Ledger, err: Option<InputError>)
    ensures var k := FirstFailure(rows);
      && l == Run(l0, OpsOf(rows[..k]))
      && (k == |rows| <==> err.None?)
      && (k < |rows| ==> err == Some(RowOp(rows[k]).error))
  {
    var k := FirstFailure(rows);
    l := l0;
    var i := 0;
    while i < |rows|
      invariant 0 <= i <= k
      invariant forall j :: 0 <= j < i ==> RowOp(rows[j]).Success?
      invariant l == Run(l0, OpsOf(rows[..i]))
    {
      var row := rows[i];
      if row.None? {
        assert RowOp(rows[i]).Failure?;
        err := Some(IllformedRecord);
        return;
      }
      var r := HandleRecord(l, row.value);
      assert RowOp(rows[i]) == Decode(row.value);
      if r.Failure? {
        assert k == i;
        err := Some(r.error);
        return;
      }
      var op := RowOp(rows[i]).value;
      assert r.value == Step(l, op);
      OpsOfExtend(rows, i);
      RunExtend(l0, OpsOf(rows[..i]), op);
      l := r.value;
      i := i + 1;
    }
    err := None;
  }
}

=== FILE: ledger_properties.dfy ===
/**
 * Properties of the ledger over one or several operations: the
 * per-transaction state machine, the dispute round trips, the
 * asymmetries of the dispute family, and invariants kept by every run.
 */
module LedgerProperties {
  import opened Models
  import opened Accounts
  import opened Ledgers

  /** Whether `op` records a new transaction under id `t`. */
  predicate Records(op: Op, t: TxID) {
    (op.DepositTx? || op.WithdrawalTx?) && op.tx == t
  }

  /**
   * The only ways one operation may change a recorded transaction:
   * a dispute takes a Normal deposit to Disputed, and the owner's resolve
   * or chargeback takes a Disputed one to Normal or Chargedback. Category,
   * amount and owner never change.
   */
  predicate LegalChange(op: Op, before: Transaction, after: Transaction) {
    || after == before
    || (op.DisputeTx? && before.category == Deposit && before.state == Normal
        && after == before.(state := Disputed))
    || (op.ResolveTx? && before.clientId == op.client && before.state == Disputed
        && after == before.(state := Normal))
    || (op.ChargebackTx? && before.clientId == op.client && before.state == Disputed
        && after == before.(state := Chargedback))
  }

  /**
   * A recorded transaction survives every operation that does not record
   * a new one under its id, and changes only as the state machine allows,
   * and only when the operation names it.
   */
  lemma TransactionLifecycle(l: Ledger, op: Op, t: TxID)
    requires t in l.transactions && !Records(op, t)
    ensures t in Step(l, op).transactions
    ensures LegalChange(op, l.transactions[t], Step(l, op).transactions[t])
    ensures t != op.tx ==> Step(l, op).transactions[t] == l.transactions[t]
  {
  }

  /** Operations add at most the one transaction id they name. */
  lemma StepAddsAtMostItsTx(l: Ledger, op: Op)
    ensures Step(l, op).transactions.Keys <= l.transactions.Keys + {op.tx}
    ensures !(op.DepositTx? || op.WithdrawalTx?) ==>
      Step(l, op).transactions.Keys == l.transactions.Keys
  {
  }

  /**
   * Chargedback is terminal: only a later deposit or withdrawal that
   * reuses the id can replace the transaction.
   */
  lemma {:induction false} ChargedbackIsTerminal(l: Ledger, ops: seq<Op>, t: TxID)
    requires t in l.transactions && l.transactions[t].state == Chargedback
    requires forall i :: 0 <= i < |ops| ==> !Records(ops[i], t)
    ensures t in Run(l, ops).transactions
    ensures Run(l, ops).transactions[t] == l.transactions[t]
    decreases |ops|
  {
    if |ops| > 0 {
      var prefix := ops[..|ops| - 1];
      ChargedbackIsTerminal(l, prefix, t);
      TransactionLifecycle(Run(l, prefix), ops[|ops| - 1], t);
    }
  }

  /**
   * Reusing a transaction id replaces the earlier entry, whatever its
   * state: a charged-back deposit becomes a Normal, disputable one again.
   */
  lemma ReusedTxIdResetsState(l: Ledger, c: ClientID, t: TxID, amount: Amount)
    requires t in l.transactions && l.transactions[t].state == Chargedback
    ensures var r := HandleDeposit(l, c, t, amount);
      && r.transactions[t].state == Normal
      && (DisputeApplies(r, c, t) <==> CanDispute(r.accounts[c], amount))
  {
  }

  /**
   * Dispute, resolve and chargeback naming an unknown client, and a
   * withdrawal for one, only create that client's empty account.
   */
  lemma UnknownClientGetsEmptyAccount(l: Ledger, op: Op)
    requires op.client !in l.accounts && !op.DepositTx?
    ensures Step(l, op) == CreateAccount(l, op.client)
    ensures Step(l, op).accounts[op.client] == DefaultAccount()
  {
  }

  /**
   * A refused withdrawal records nothing, so a later dispute, resolve or
   * chargeback on its id does nothing beyond the account creation.
   */
  lemma RejectedWithdrawalLeavesNoTrace(l: Ledger, c: ClientID, t: TxID, amount: Amount, caller: ClientID)
    requires t !in l.transactions && !WithdrawalApplies(l, c, amount)
    ensures var r := HandleWithdrawal(l, c, t, amount);
      && r.transactions == l.transactions
      && HandleDispute(r, caller, t) == Touch(r, caller)
      && HandleResolve(r, caller, t) == Touch(r, caller)
      && HandleChargeback(r, caller, t) == Touch(r, caller)
  {
  }

  /**
   * The owner's dispute followed by the owner's resolve restores the whole
   * ledger, provided nothing negative was held.
   */
  lemma DisputeThenResolveRestores(l: Ledger, c: ClientID, t: TxID)
    requires DisputeApplies(l, c, t) && l.transactions[t].clientId == c
    requires l.accounts[c].held >= 0.0
    ensures ResolveApplies(HandleDispute(l, c, t), c, t)
    ensures HandleResolve(HandleDispute(l, c, t), c, t) == l
  {
    DisputeThenResolve(l.accounts[c], l.transactions[t].amount);
  }

  /**
   * The owner's dispute followed by the owner's chargeback removes the
   * amount from available and total, leaves held as it was, locks the
   * account against every withdrawal, and leaves a transaction that no
   * second chargeback or resolve can move.
   */
  lemma DisputeThenChargebackLocks(l: Ledger, c: ClientID, t: TxID)
    requires DisputeApplies(l, c, t) && l.transactions[t].clientId == c
    requires l.accounts[c].Balanced() && l.accounts[c].held >= 0.0
    ensures var l1 := HandleDispute(l, c, t);
      var l2 := HandleChargeback(l1, c, t);
      var a := l.accounts[c];
      var amount := l.transactions[t].amount;
      && ChargebackApplies(l1, c, t)
      && l2.accounts[c] == Account(a.available - amount, a.held, a.total - amount, true)
      && l2.transactions[t].state == Chargedback
      && HandleChargeback(l2, c, t) == l2
      && HandleResolve(l2, c, t) == l2
      && (forall x :: !WithdrawalApplies(l2, c, x))
  {
    DisputeThenChargeback(l.accounts[c], l.transactions[t].amount);
  }

  /**
   * A dispute is not checked against the transaction's owner: any known
   * client may dispute any Normal deposit, and the funds move inside the
   * caller's account while the owner's account stays as it was. The caller
   * can then neither resolve nor charge it back.
   */
  lemma DisputeSkipsOwnerCheck(l: Ledger, c: ClientID, t: TxID)
    requires DisputeApplies(l, c, t) && l.transactions[t].clientId != c
    ensures var r := HandleDispute(l, c, t);
      var owner := l.transactions[t].clientId;
      var amount := l.transactions[t].amount;
      && r.accounts[c].available == l.accounts[c].available - amount
      && r.accounts[c].held == l.accounts[c].held + amount
      && (owner in l.accounts ==> r.accounts[owner] == l.accounts[owner])
      && r.transactions[t].state == Disputed
      && HandleResolve(r, c, t) == r
      && HandleChargeback(r, c, t) == r
  {
  }

  /** Every recorded transaction amount is non-negative. */
  predicate AmountsNonNegative(transactions: map<TxID, Transaction>) {
    forall t :: t in transactions ==> transactions[t].amount >= 0.0
  }

  /** Every account has non-negative balances. */
  predicate BalancesNonNegative(accounts: map<ClientID, Account>) {
    forall c :: c in accounts ==> accounts[c].NonNegative()
  }

  /** A deposit or withdrawal carries a non-negative amount. */
  predicate OpAmountNonNegative(op: Op) {
    (op.DepositTx? || op.WithdrawalTx?) ==> op.amount >= 0.0
  }

  lemma NonNegativeAfterUpdate(accounts: map<ClientID, Account>, c: ClientID, a: Account)
    requires BalancesNonNegative(accounts) && a.NonNegative()
    ensures BalancesNonNegative(accounts[c := a])
  {
  }

  lemma AmountsAfterUpdate(transactions: map<TxID, Transaction>, t: TxID, tx: Transaction)
    requires AmountsNonNegative(transactions) && tx.amount >= 0.0
    ensures AmountsNonNegative(transactions[t := tx])
  {
  }

  /** One step with a non-negative amount keeps every balance non-negative. */
  lemma StepKeepsBalancesNonNegative(l: Ledger, op: Op)
    requires AmountsNonNegative(l.transactions) && BalancesNonNegative(l.accounts)
    requires OpAmountNonNegative(op)
    ensures AmountsNonNegative(Step(l, op).transactions)
    ensures BalancesNonNegative(Step(l, op).accounts)
  {
    var c := op.client;
    if Applies(l, op) {
      if c in l.accounts {
        MutatorsKeepNonNegative(l.accounts[c], if op.DepositTx? || op.WithdrawalTx? then op.amount
                                               else l.transactions[op.tx].amount);
      } else {
        MutatorsKeepNonNegative(DefaultAccount(), op.amount);
      }
      match op
      case DepositTx(_, t, amount) =>
        NonNegativeAfterUpdate(l.accounts, c, ApplyDeposit(AccountOf(l, c), amount));
        AmountsAfterUpdate(l.transactions, t, FromDeposit(c, amount));
      case WithdrawalTx(_, t, amount) =>
        NonNegativeAfterUpdate(l.accounts, c, ApplyWithdrawal(l.accounts[c], amount));
        AmountsAfterUpdate(l.transactions, t, FromWithdrawal(c, amount));
      case DisputeTx(_, t) =>
        var tx := l.transactions[t];
        NonNegativeAfterUpdate(l.accounts, c, ApplyDispute(l.accounts[c], tx.amount));
        AmountsAfterUpdate(l.transactions, t, tx.(state := Disputed));
      case ResolveTx(_, t) =>
        var tx := l.transactions[t];
        NonNegativeAfterUpdate(l.accounts, c, ApplyResolve(l.accounts[c], tx.amount));
        AmountsAfterUpdate(l.transactions, t, tx.(state := Normal));
      case ChargebackTx(_, t) =>
        var tx := l.transactions[t];
        NonNegativeAfterUpdate(l.accounts, c, ApplyChargeback(l.accounts[c], tx.amount));
        AmountsAfterUpdate(l.transactions, t, tx.(state := Chargedback));
    } else if c !in l.accounts {
      NonNegativeAfterUpdate(l.accounts, c, DefaultAccount());
    }
  }

  /**
   * When no input amount is negative, the eligibility checks keep every
   * balance of every account non-negative for the whole run.
   */
  lemma {:induction false} RunKeepsBalancesNonNegative(l: Ledger, ops: seq<Op>)
    requires AmountsNonNegative(l.transactions) && BalancesNonNegative(l.accounts)
    requires forall i :: 0 <= i < |ops| ==> OpAmountNonNegative(ops[i])
    ensures AmountsNonNegative(Run(l, ops).transactions)
    ensures BalancesNonNegative(Run(l, ops).accounts)
    decreases |ops|
  {
    if |ops| > 0 {
      var prefix := ops[..|ops| - 1];
      RunKeepsBalancesNonNegative(l, prefix);
      StepKeepsBalancesNonNegative(Run(l, prefix), ops[|ops| - 1]);
    }
  }

  /** No operation clears a lock: a locked account stays present and locked. */
  lemma StepKeepsLock(l: Ledger, op: Op, c: ClientID)
    requires c in l.accounts && l.accounts[c].locked
    ensures c in Step(l, op).accounts && Step(l, op).accounts[c].locked
  {
  }

  /**
   * Once an account is locked it stays locked through any run, and every
   * withdrawal from it is refused.
   */
  lemma {:induction false} RunKeepsLock(l: Ledger, ops: seq<Op>, c: ClientID)
    requires c in l.accounts && l.accounts[c].locked
    ensures c in Run(l, ops).accounts && Run(l, ops).accounts[c].locked
    ensures forall x :: !WithdrawalApplies(Run(l, ops), c, x)
    decreases |ops|
  {
    if |ops| > 0 {
      var prefix := ops[..|ops| - 1];
      RunKeepsLock(l, prefix, c);
      StepKeepsLock(Run(l, prefix), ops[|ops| - 1], c);
    }
  }
}

=== FILE: ledgers.dfy ===
/**
 * The ledger dispatcher: one total operation per transaction type over the
 * account table and the transaction table. An operation whose guard fails
 * is a silent no-op, except that a non-deposit operation naming an unknown
 * client leaves an empty account behind for that client.
 */
module Ledgers {
  import opened Models
  import opened Accounts

  /** `Transaction::from_deposit`. */
  function FromDeposit(c: ClientID, amount: Amount): (tx: Transaction)
    ensures tx.category == Deposit && tx.state == Normal
    ensures tx.amount == amount && tx.clientId == c
  {
    Transaction(Deposit, Normal, amount, c)
  }

  /** `Transaction::from_withdrawal`. */
  function FromWithdrawal(c: ClientID, amount: Amount): (tx: Transaction)
    ensures tx.category == Withdrawal && tx.state == Normal
    ensures tx.amount == amount && tx.clientId == c
  {
    Transaction(Withdrawal, Normal, amount, c)
  }

  /** The account of `c`, or the empty account the ledger would create. */
  function AccountOf(l: Ledger, c: ClientID): Account {
    if c in l.accounts then l.accounts[c] else DefaultAccount()
  }

  /** Inserts an empty account for `c`; nothing else changes. */
  function CreateAccount(l: Ledger, c: ClientID): (r: Ledger)
    ensures c in r.accounts && r.accounts[c] == DefaultAccount()
    ensures r.accounts.Keys == l.accounts.Keys + {c}
    ensures forall d :: d in l.accounts && d != c ==> r.accounts[d] == l.accounts[d]
    ensures r.transactions == l.transactions
  {
    l.(accounts := l.accounts[c := DefaultAccount()])
  }

  /**
   * The only effect a refused non-deposit operation has: an unknown client
   * gets an empty account, a known one is left as it is.
   */
  function Touch(l: Ledger, c: ClientID): Ledger {
    if c in l.accounts then l else CreateAccount(l, c)
  }

  /**
   * `r` differs from `l` at most in the account of `c`, which exists
   * afterwards, and in added or replaced transactions.
   */
  predicate OnlyTouches(l: Ledger, r: Ledger, c: ClientID) {
    && r.accounts.Keys == l.accounts.Keys + {c}
    && (forall d :: d in l.accounts && d != c ==> r.accounts[d] == l.accounts[d])
    && l.transactions.Keys <= r.transactions.Keys
  }

  predicate WithdrawalApplies(l: Ledger, c: ClientID, amount: Amount) {
    c in l.accounts && CanWithdraw(l.accounts[c], amount)
  }

  /**
   * A dispute needs a known caller and a Normal deposit the caller's
   * available funds can cover; whose deposit it is is not checked.
   */
  predicate DisputeApplies(l: Ledger, c: ClientID, t: TxID) {
    && c in l.accounts
    && t in l.transactions
    && l.transactions[t].category == Deposit
    && l.transactions[t].state == Normal
    && CanDispute(l.accounts[c], l.transactions[t].amount)
  }

  /** A resolve needs the caller to own a Disputed transaction. */
  predicate ResolveApplies(l: Ledger, c: ClientID, t: TxID) {
    && c in l.accounts
    && t in l.transactions
    && l.transactions[t].clientId == c
    && l.transactions[t].state == Disputed
    && CanResolve(l.accounts[c], l.transactions[t].amount)
  }

  /** A chargeback needs the caller to own a Disputed transaction. */
  predicate ChargebackApplies(l: Ledger, c: ClientID, t: TxID) {
    && c in l.accounts
    && t in l.transactions
    && l.transactions[t].clientId == c
    && l.transactions[t].state == Disputed
    && CanChargeback(l.accounts[c], l.transactions[t].amount)
  }

  /**
   * Always records the deposit under `t`, replacing any earlier entry,
   * and credits the (possibly new) account of `c`.
   */
  function HandleDeposit(l: Ledger, c: ClientID, t: TxID, amount: Amount): (r: Ledger)
    ensures r.transactions == l.transactions[t := FromDeposit(c, amount)]
    ensures r.accounts == l.accounts[c := ApplyDeposit(AccountOf(l, c), amount)]
    ensures OnlyTouches(l, r, c)
  {
    // The existing account is credited in place; an unknown client gets a
    // default account, credited, then inserted.
    Ledger(l.accounts[c := ApplyDeposit(AccountOf(l, c), amount)],
           l.transactions[t := FromDeposit(c, amount)])
  }

  function HandleWithdrawal(l: Ledger, c: ClientID, t: TxID, amount: Amount): (r: Ledger)
    ensures !WithdrawalApplies(l, c, amount) ==> r == Touch(l, c)
    ensures WithdrawalApplies(l, c, amount) ==>
      && r.transactions == l.transactions[t := FromWithdrawal(c, amount)]
      && r.accounts == l.accounts[c := ApplyWithdrawal(l.accounts[c], amount)]
    ensures OnlyTouches(l, r, c)
  {
    if c in l.accounts then
      var account := l.accounts[c];
      if CanWithdraw(account, amount) then
        Ledger(l.accounts[c := ApplyWithdrawal(account, amount)],
               l.transactions[t := FromWithdrawal(c, amount)])
      else
        l
    else
      CreateAccount(l, c)
  }

  function HandleDispute(l: Ledger, c: ClientID, t: TxID): (r: Ledger)
    ensures !DisputeApplies(l, c, t) ==> r == Touch(l, c)
    ensures DisputeApplies(l, c, t) ==>
      var tx := l.transactions[t];
      && r.transactions == l.transactions[t := tx.(state := Disputed)]
      && r.accounts == l.accounts[c := ApplyDispute(l.accounts[c], tx.amount)]
    ensures OnlyTouches(l, r, c)
  {
    if c in l.accounts then
      var account := l.accounts[c];
      if t in l.transactions then
        var tx := l.transactions[t];
        if tx.category == Deposit && tx.state == Normal && CanDispute(account, tx.amount) then
          Ledger(l.accounts[c := ApplyDispute(account, tx.amount)],
                 l.transactions[t := tx.(state := Disputed)])
        else
          l
      else
        l
    else
      CreateAccount(l, c)
  }

  function HandleResolve(l: Ledger, c: ClientID, t: TxID): (r: Ledger)
    ensures !ResolveApplies(l, c, t) ==> r == Touch(l, c)
    ensures ResolveApplies(l, c, t) ==>
      var tx := l.transactions[t];
      && r.transactions == l.transactions[t := tx.(state := Normal)]
      && r.accounts == l.accounts[c := ApplyResolve(l.accounts[c], tx.amount)]
    ensures OnlyTouches(l, r, c)
  {
    if c in l.accounts then
      var account := l.accounts[c];
      if t in l.transactions then
        var tx := l.transactions[t];
        if tx.clientId == c && tx.state == Disputed && CanResolve(account, tx.amount) then
          Ledger(l.accounts[c := ApplyResolve(account, tx.amount)],
                 l.transactions[t := tx.(state := Normal)])
        else
          l
      else
        l
    else
      CreateAccount(l, c)
  }

  function HandleChargeback(l: Ledger, c: ClientID, t: TxID): (r: Ledger)
    ensures !ChargebackApplies(l, c, t) ==> r == Touch(l, c)
    ensures ChargebackApplies(l, c, t) ==>
      var tx := l.transactions[t];
      && r.transactions == l.transactions[t := tx.(state := Chargedback)]
      && r.accounts == l.accounts[c := ApplyChargeback(l.accounts[c], tx.amount)]
    ensures OnlyTouches(l, r, c)
  {
    if c in l.accounts then
      var account := l.accounts[c];
      if t in l.transactions then
        var tx := l.transactions[t];
        if tx.clientId == c && tx.state == Disputed && CanChargeback(account, tx.amount) then
          Ledger(l.accounts[c := ApplyChargeback(account, tx.amount)],
                 l.transactions[t := tx.(state := Chargedback)])
        else
          l
      else
        l
    else
      CreateAccount(l, c)
  }

  /** One call of a ledger handler, as data. */
  datatype Op =
    | DepositTx(client: ClientID, tx: TxID, amount: Amount)
    | WithdrawalTx(client: ClientID, tx: TxID, amount: Amount)
    | DisputeTx(client: ClientID, tx: TxID)
    | ResolveTx(client: ClientID, tx: TxID)
    | ChargebackTx(client: ClientID, tx: TxID)

  /** Whether the handler `op` names passes its guard on `l`. */
  predicate Applies(l: Ledger, op: Op) {
    match op
    case DepositTx(_, _, _) => true
    case WithdrawalTx(c, _, amount) => WithdrawalApplies(l, c, amount)
    case DisputeTx(c, t) => DisputeApplies(l, c, t)
    case ResolveTx(c, t) => ResolveApplies(l, c, t)
    case ChargebackTx(c, t) => ChargebackApplies(l, c, t)
  }

  /**
   * Applies one handler. A refused operation only ever creates the
   * caller's empty account, and no operation touches another client's
   * account.
   */
  function Step(l: Ledger, op: Op): (r: Ledger)
    ensures !Applies(l, op) ==> r == Touch(l, op.client)
    ensures OnlyTouches(l, r, op.client)
  {
    match op
    case DepositTx(c, t, amount) => HandleDeposit(l, c, t, amount)
    case WithdrawalTx(c, t, amount) => HandleWithdrawal(l, c, t, amount)
    case DisputeTx(c, t) => HandleDispute(l, c, t)
    case ResolveTx(c, t) => HandleResolve(l, c, t)
    case ChargebackTx(c, t) => HandleChargeback(l, c, t)
  }

  lemma BalancedAfterUpdate(accounts: map<ClientID, Account>, c: ClientID, a: Account)
    requires AccountsBalanced(accounts) && a.Balanced()
    ensures AccountsBalanced(accounts[c := a])
  {
  }

  lemma WithdrawalsNormalAfterUpdate(transactions: map<TxID, Transaction>, t: TxID, tx: Transaction)
    requires WithdrawalsNormal(transactions)
    requires tx.category == Withdrawal ==> tx.state == Normal
    ensures WithdrawalsNormal(transactions[t := tx])
  {
  }

  /**
   * Every handler keeps every account balanced (each mutator does) and
   * keeps withdrawals in state Normal (only deposits are ever disputed).
   */
  lemma StepPreservesValid(l: Ledger, op: Op)
    ensures l.Valid() ==> Step(l, op).Valid()
  {
    if l.Valid() && Applies(l, op) {
      var c := op.client;
      if c in l.accounts {
        MutatorsKeepBalance(l.accounts[c], if op.DepositTx? || op.WithdrawalTx? then op.amount
                                           else l.transactions[op.tx].amount);
      } else {
        MutatorsKeepBalance(DefaultAccount(), op.amount);
      }
      match op
      case DepositTx(_, t, amount) =>
        BalancedAfterUpdate(l.accounts, c, ApplyDeposit(AccountOf(l, c), amount));
        WithdrawalsNormalAfterUpdate(l.transactions, t, FromDeposit(c, amount));
      case WithdrawalTx(_, t, amount) =>
        BalancedAfterUpdate(l.accounts, c, ApplyWithdrawal(l.accounts[c], amount));
        WithdrawalsNormalAfterUpdate(l.transactions, t, FromWithdrawal(c, amount));
      case DisputeTx(_, t) =>
        var tx := l.transactions[t];
        BalancedAfterUpdate(l.accounts, c, ApplyDispute(l.accounts[c], tx.amount));
        WithdrawalsNormalAfterUpdate(l.transactions, t, tx.(state := Disputed));
      case ResolveTx(_, t) =>
        var tx := l.transactions[t];
        BalancedAfterUpdate(l.accounts, c, ApplyResolve(l.accounts[c], tx.amount));
        WithdrawalsNormalAfterUpdate(l.transactions, t, tx.(state := Normal));
      case ChargebackTx(_, t) =>
        var tx := l.transactions[t];
        BalancedAfterUpdate(l.accounts, c, ApplyChargeback(l.accounts[c], tx.amount));
        WithdrawalsNormalAfterUpdate(l.transactions, t, tx.(state := Chargedback));
    } else if l.Valid() && op.client !in l.accounts {
      BalancedAfterUpdate(l.accounts, op.client, DefaultAccount());
    }
  }

  /**
   * Applies `ops` in order. Accounts and transactions are never removed,
   * and every client named by an operation ends up with an account.
   */
  function Run(l: Ledger, ops: seq<Op>): (r: Ledger)
    ensures l.accounts.Keys <= r.accounts.Keys
    ensures l.transactions.Keys <= r.transactions.Keys
    ensures forall i :: 0 <= i < |ops| ==> ops[i].client in r.accounts
    decreases |ops|
  {
    if |ops| == 0 then l
    else
      var init := ops[..|ops| - 1];
      assert forall i :: 0 <= i < |init| ==> init[i] == ops[i];
      Step(Run(l, init), ops[|ops| - 1])
  }

  /** The ledger invariant holds after any run that starts from a valid ledger. */
  lemma {:induction false} RunPreservesValid(l: Ledger, ops: seq<Op>)
    requires l.Valid()
    ensures Run(l, ops).Valid()
    decreases |ops|
  {
    if |ops| > 0 {
      var init := ops[..|ops| - 1];
      RunPreservesValid(l, init);
      StepPreservesValid(Run(l, init), ops[|ops| - 1]);
    }
  }

  /** Running one more operation is one more step. */
  lemma RunExtend(l: Ledger, ops: seq<Op>, op: Op)
    ensures Run(l, ops + [op]) == Step(Run(l, ops), op)
  {
  }
}

=== FILE: models.dfy ===
/**
 * The data types of the transaction processor: transaction categories and
 * states, the transaction record, the per-client account and the ledger
 * that owns both tables.
 */
module Models {

  /** Rust's u32: the width of client and transaction identifiers. */
  type u32 = x: int | 0 <= x < 0x1_0000_0000

  type ClientID = u32
  type TxID = u32

  /**
   * A `rust_decimal::Decimal` value. Decimal addition and subtraction are
   * exact within the 96-bit mantissa, so they are modelled by exact
   * rationals; the mantissa limit is not modelled.
   */
  type Amount = real

  datatype TxCategory = Deposit | Withdrawal

  datatype TxState = Normal | Disputed | Chargedback

  /** A recorded deposit or withdrawal together with its dispute state. */
  datatype Transaction = Transaction(
    category: TxCategory,
    state: TxState,
    amount: Amount,
    clientId: ClientID)

  datatype Account = Account(
    available: Amount,
    held: Amount,
    total: Amount,
    locked: bool)
  {
    /** The audit invariant: the stored total is the sum of the two parts. */
    predicate Balanced() {
      total == available + held
    }

    /** No balance field is negative. */
    predicate NonNegative() {
      available >= 0.0 && held >= 0.0 && total >= 0.0
    }
  }

  /**
   * The ledger: one account per client id (the map makes a second account
   * for the same client impossible) and one transaction per transaction id,
   * shared by all clients.
   */
  datatype Ledger = Ledger(
    accounts: map<ClientID, Account>,
    transactions: map<TxID, Transaction>)
  {
    /** Every account is balanced and no withdrawal ever left state Normal. */
    predicate Valid() {
      AccountsBalanced(accounts) && WithdrawalsNormal(transactions)
    }
  }

  predicate AccountsBalanced(accounts: map<ClientID, Account>) {
    forall c :: c in accounts ==> accounts[c].Balanced()
  }

  predicate WithdrawalsNormal(transactions: map<TxID, Transaction>) {
    forall t :: t in transactions && transactions[t].category == Withdrawal
      ==> transactions[t].state == Normal
  }

  /** `Account::default()`. */
  function DefaultAccount(): Account {
    Account(0.0, 0.0, 0.0, false)
  }

  /** The default account holds nothing, is unlocked and is balanced. */
  lemma DefaultAccountIsEmpty()
    ensures DefaultAccount().available == 0.0 && DefaultAccount().held == 0.0
    ensures DefaultAccount().total == 0.0 && !DefaultAccount().locked
    ensures DefaultAccount().Balanced() && DefaultAccount().NonNegative()
  {
  }

  /** `Ledger::default()`: no accounts, no transactions. */
  function DefaultLedger(): (l: Ledger)
    ensures |l.accounts| == 0 && |l.transactions| == 0
    ensures l.Valid()
  {
    Ledger(map[], map[])
  }
}

=== FILE: scenarios.dfy ===
/**
 * Concrete runs: the account unit tests of the handlers, and a
 * five-record batch run end to end through the ledger.
 */
module Scenarios {
  import opened Wrappers
  import opened Models
  import opened Accounts
  import opened Ledgers
  import opened Input

  /** Handler test, first part: deposit 100 into a fresh account, then withdraw 99. */
  lemma DepositWithdrawTest()
    ensures ApplyDeposit(DefaultAccount(), 100.0) == Account(100.0, 0.0, 100.0, false)
    ensures CanWithdraw(Account(100.0, 0.0, 100.0, false), 99.0)
    ensures ApplyWithdrawal(Account(100.0, 0.0, 100.0, false), 99.0) == Account(1.0, 0.0, 1.0, false)
  {
  }

  /** Handler test, second part: dispute 1 of the remaining 1. */
  lemma DisputeTest()
    ensures CanDispute(Account(1.0, 0.0, 1.0, false), 1.0)
    ensures ApplyDispute(Account(1.0, 0.0, 1.0, false), 1.0) == Account(0.0, 1.0, 1.0, false)
  {
  }

  /** Handler test, third part: resolve the disputed 1. */
  lemma ResolveTest()
    ensures CanResolve(Account(0.0, 1.0, 1.0, false), 1.0)
    ensures ApplyResolve(Account(0.0, 1.0, 1.0, false), 1.0) == Account(1.0, 0.0, 1.0, false)
  {
  }

  /** Handler test, last part: dispute 1 again and charge it back. */
  lemma DisputeChargebackTest()
    ensures CanChargeback(Account(0.0, 1.0, 1.0, false), 1.0)
    ensures ApplyChargeback(Account(0.0, 1.0, 1.0, false), 1.0) == Account(0.0, 0.0, 0.0, true)
  {
  }

  /** The batch: two deposits, a withdrawal, then a dispute and a chargeback of tx 1. */
  function Batch(): seq<Row> {
    [ Some(Record("deposit", Some(1), Some(1), Some(100.0))),
      Some(Record("deposit", Some(2), Some(2), Some(50.0))),
      Some(Record("withdrawal", Some(1), Some(3), Some(20.0))),
      Some(Record("dispute", Some(1), Some(1), None)),
      Some(Record("chargeback", Some(1), Some(1), None)) ]
  }

  /** The handler calls the batch stands for. */
  function BatchOps(): seq<Op> {
    [ DepositTx(1, 1, 100.0), DepositTx(2, 2, 50.0), WithdrawalTx(1, 3, 20.0),
      DisputeTx(1, 1), ChargebackTx(1, 1) ]
  }

  /** Every row of the batch decodes, to the expected handler call. */
  lemma BatchDecodes()
    ensures FirstFailure(Batch()) == |Batch()|
    ensures OpsOf(Batch()) == BatchOps()
  {
    var rows := Batch();
    assert RowOp(rows[0]) == Success(BatchOps()[0]);
    assert RowOp(rows[1]) == Success(BatchOps()[1]);
    assert RowOp(rows[2]) == Success(BatchOps()[2]);
    assert RowOp(rows[3]) == Success(BatchOps()[3]);
    assert RowOp(rows[4]) == Success(BatchOps()[4]);
  }

  /** The ledger after the first deposit. */
  function AfterFirstDeposit(): Ledger {
    Ledger(map[1 := Account(100.0, 0.0, 100.0, false)],
           map[1 := Transaction(Deposit, Normal, 100.0, 1)])
  }

  /** The ledger after both deposits. */
  function AfterDeposits(): Ledger {
    Ledger(map[1 := Account(100.0, 0.0, 100.0, false), 2 := Account(50.0, 0.0, 50.0, false)],
           map[1 := Transaction(Deposit, Normal, 100.0, 1), 2 := Transaction(Deposit, Normal, 50.0, 2)])
  }

  /** The ledger after the withdrawal of 20 by client 1. */
  function AfterWithdrawal(): Ledger {
    Ledger(map[1 := Account(80.0, 0.0, 80.0, false), 2 := Account(50.0, 0.0, 50.0, false)],
           map[1 := Transaction(Deposit, Normal, 100.0, 1), 2 := Transaction(Deposit, Normal, 50.0, 2),
               3 := Transaction(Withdrawal, Normal, 20.0, 1)])
  }

  /** Client 1 holds 100, so the withdrawal of 20 is applied and recorded. */
  lemma BatchStepThree()
    ensures WithdrawalApplies(AfterDeposits(), 1, 20.0)
    ensures HandleWithdrawal(AfterDeposits(), 1, 3, 20.0) == AfterWithdrawal()
  {
  }

  /**
   * Client 1's 80 available cannot cover the disputed 100, so the dispute
   * is refused, and the chargeback then finds the deposit still Normal.
   */
  lemma BatchLastSteps()
    ensures !DisputeApplies(AfterWithdrawal(), 1, 1)
    ensures HandleDispute(AfterWithdrawal(), 1, 1) == AfterWithdrawal()
    ensures !ChargebackApplies(AfterWithdrawal(), 1, 1)
    ensures HandleChargeback(AfterWithdrawal(), 1, 1) == AfterWithdrawal()
  {
  }

  // The batch run is traced one handler call per lemma, with the calls and
  // the intermediate ledgers passed as parameters, so that no single proof
  // has to evaluate the whole run on literal values.

  /** The first deposit, as a step. */
  lemma BatchStepOneOp(l: Ledger, op: Op)
    requires l == DefaultLedger() && op == DepositTx(1, 1, 100.0)
    ensures Step(l, op) == AfterFirstDeposit()
  {
  }

  /** The second deposit, as a step. */
  lemma BatchStepTwoOp(l: Ledger, op: Op)
    requires l == AfterFirstDeposit() && op == DepositTx(2, 2, 50.0)
    ensures Step(l, op) == AfterDeposits()
  {
  }

  /** The withdrawal, as a step. */
  lemma BatchStepThreeOp(l: Ledger, op: Op)
    requires l == AfterDeposits() && op == WithdrawalTx(1, 3, 20.0)
    ensures Step(l, op) == AfterWithdrawal()
  {
    BatchStepThree();
  }

  /** The refused dispute, as a step. */
  lemma BatchStepFourOp(l: Ledger, op: Op)
    requires l == AfterWithdrawal() && op == DisputeTx(1, 1)
    ensures Step(l, op) == AfterWithdrawal()
  {
    BatchLastSteps();
  }

  /** The refused chargeback, as a step. */
  lemma BatchStepFiveOp(l: Ledger, op: Op)
    requires l == AfterWithdrawal() && op == ChargebackTx(1, 1)
    ensures Step(l, op) == AfterWithdrawal()
  {
    BatchLastSteps();
  }

  /** Runs of two to five calls, each built from the shorter one and one step. */
  lemma RunTwo(l0: Ledger, a: Op, b: Op, l1: Ledger, l2: Ledger)
    requires Step(l0, a) == l1 && Step(l1, b) == l2
    ensures Run(l0, [a, b]) == l2
  {
    RunExtend(l0, [], a);
    assert [] + [a] == [a];
    RunExtend(l0, [a], b);
    assert [a] + [b] == [a, b];
  }

  lemma RunThree(l0: Ledger, a: Op, b: Op, c: Op, l2: Ledger, l3: Ledger)
    requires Run(l0, [a, b]) == l2 && Step(l2, c) == l3
    ensures Run(l0, [a, b, c]) == l3
  {
    RunExtend(l0, [a, b], c);
    assert [a, b] + [c] == [a, b, c];
  }

  lemma RunFour(l0: Ledger, a: Op, b: Op, c: Op, d: Op, l3: Ledger, l4: Ledger)
    requires Run(l0, [a, b, c]) == l3 && Step(l3, d) == l4
    ensures Run(l0, [a, b, c, d]) == l4
  {
    RunExtend(l0, [a, b, c], d);
    assert [a, b, c] + [d] == [a, b, c, d];
  }

  lemma RunFive(l0: Ledger, a: Op, b: Op, c: Op, d: Op, e: Op, l4: Ledger, l5: Ledger)
    requires Run(l0, [a, b, c, d]) == l4 && Step(l4, e) == l5
    ensures Run(l0, [a, b, c, d, e]) == l5
  {
    RunExtend(l0, [a, b, c, d], e);
    assert [a, b, c, d] + [e] == [a, b, c, d, e];
  }

  /** Running the five handler calls of the batch from an empty ledger. */
  lemma BatchRunAll(l0: Ledger, a: Op, b: Op, c: Op, d: Op, e: Op)
    requires l0 == DefaultLedger()
    requires a == DepositTx(1, 1, 100.0) && b == DepositTx(2, 2, 50.0) && c == WithdrawalTx(1, 3, 20.0)
    requires d == DisputeTx(1, 1) && e == ChargebackTx(1, 1)
    ensures Run(l0, [a, b, c, d, e]) == AfterWithdrawal()
  {
    BatchStepOneOp(l0, a);
    BatchStepTwoOp(AfterFirstDeposit(), b);
    BatchStepThreeOp(AfterDeposits(), c);
    BatchStepFourOp(AfterWithdrawal(), d);
    BatchStepFiveOp(AfterWithdrawal(), e);
    RunTwo(l0, a, b, AfterFirstDeposit(), AfterDeposits());
    RunThree(l0, a, b, c, AfterDeposits(), AfterWithdrawal());
    RunFour(l0, a, b, c, d, AfterWithdrawal(), AfterWithdrawal());
    RunFive(l0, a, b, c, d, e, AfterWithdrawal(), AfterWithdrawal());
  }

  /**
   * The whole batch: the refused dispute and chargeback change nothing, so
   * client 1 ends with 80 available and total, client 2 with 50, neither
   * locked, nothing held, and deposit 1 still Normal.
   */
  lemma BatchEndToEnd(l0: Ledger, rows: seq<Row>)
    requires l0 == DefaultLedger() && rows == Batch()
    ensures FirstFailure(rows) == |rows|
    ensures Run(l0, OpsOf(rows)) == AfterWithdrawal()
  {
    BatchDecodes();
    var ops := OpsOf(rows);
    BatchRunAll(l0, ops[0], ops[1], ops[2], ops[3], ops[4]);
    assert ops == [ops[0], ops[1], ops[2], ops[3], ops[4]];
  }

  /** The parser accepts a negative deposit amount. */
  lemma NegativeDepositDecodes()
    ensures Decode(Record("deposit", Some(1), Some(1), Some(-5.0))) == Success(DepositTx(1, 1, -5.0))
  {
  }

  /** A negative deposit is applied unchecked and takes a fresh account below zero. */
  lemma NegativeDepositOverdraws()
    ensures HandleDeposit(DefaultLedger(), 1, 1, -5.0).accounts[1].available == -5.0
  {
  }
}

=== FILE: wrappers.dfy ===
/** Option and Result, used across the ledger model. */
module Wrappers {

  /** A value that may be absent, e.g. a CSV column that did not parse. */
  datatype Option<+T> = None | Some(value: T)

  /** Either a successful value or an error value. */
  datatype Result<+R, +E> = Success(value: R) | Failure(error: E)
}
